=== FILE: README.md ===
# Motion detector decision logic, in Dafny

A model of the application logic of the HARDWARIO radio motion detector. It is a
battery node with a PIR motion sensor, a thermometer, an accelerometer and a button.
It turns motion pulses, temperature readings and orientation changes into a few
rate-limited radio messages, and its parameters can be changed from the AT console
(`$CONFIG`).

The repository holds the same program twice. `src/application.c` uses the `twr_`
SDK prefix and `app/application.c` the legacy `bc_` prefix. The two files agree
line for line up to line 208. From `atci_config_set` on, every line of
`app/application.c` sits two lines lower. This project has one model of both. The
table cites whichever copy each row checks the model against.

Each handler is a pure function. It takes the node's state (`Application.Node`)
and the handler's input. It returns the new state and the list of events it emits
(`Application.Step`). Events stand for radio publications, driver settings and
console lines. The scheduler's tick is an input called `now`.

- `Configuration`: the configuration record with its defaults, and the `$CONFIG`
  name dispatch. Setting converts the console value: seconds become milliseconds in
  `uint32_t` arithmetic, tenths become degrees, and byte fields are truncated. The
  get report divides intervals back into seconds.
- `Gates`: the motion-count publish gate, which only looks at time and is switched
  off by a zero interval. Also the temperature gate, which opens on a large enough
  change or once its deadline has passed. Both compare the deadline strictly.
- `Presence`: the end-of-window hysteresis. The enter test runs first. The leave
  test then sees the flag the enter test may just have raised.
- `Orientation`: the edge debouncer on the face label. The remembered face starts
  out unknown.
- `Sensitivity`: a long button press cycles the PIR sensitivity.
- `Application`: the node state, every handler, the input dispatcher `Handle`, and
  `Run`, which feeds a series of inputs through it.
- `Traces`: properties that span several inputs, such as dormancy when the window
  interval is 0, the counters over a run of pulses, and the spacing of
  publications.

Some consequences of the code that a reader might not expect:

- Overlapping thresholds (enter ≤ count ≤ leave) end in *absent*. The leave test
  runs on the flag that the enter test has just raised.
- Both gates test the deadline strictly: the time clause is `next_pub < now`, not
  `next_pub <= now`. The temperature gate also opens on a large enough change,
  whatever the deadline.
- A temperature delta of 0 publishes every successful reading, because
  `|v − last| ≥ 0` always holds.
- A long press changes the sensitivity only in the configuration. The new level is
  not passed to the PIR driver. Initialisation sets the driver to MEDIUM whatever
  the configuration says. The model does not claim that the configuration and the
  driver agree.

## Model

| member | source | states |
|---|---|---|
| Presence.Evaluate | src/application.c:400-408 | the two sequential tests give exactly `(present ∨ count ≥ enter) ∧ ¬(count ≤ leave)`; absent with count < enter stays absent, present with count > leave stays present, an overlapping count ends absent |
| Presence.HysteresisBand | app/application.c:402-410 | with leave < count < enter the flag is kept as it was |
| Application.PresenceTask | src/application.c:393-420 | a zero window interval changes nothing and emits nothing; otherwise the new flag is the hysteresis formula, the state event is 1 exactly when the new flag is set, the events value is the pre-step count, the count becomes 0, the task is replanned at now + interval, and nothing else changes |
| Traces.OverlapLeaveWins | app/application.c:402-410 | an absent node whose window count lies between overlapping thresholds stays absent and publishes state 0 |
| Traces.PresenceWindows | app/application.c:397-421 | with thresholds 4/2 a window of ≥ 4 pulses gives present, ≤ 2 gives absent, 3 keeps the flag; the count is published and then cleared |
| Traces.DormantWhileDisabled | src/application.c:393-398 | while the window interval is 0 and no input sets it non-zero, the flag never changes and no presence event is emitted, whatever the inputs |
| Traces.SetIntervalZeroFreezes | app/application.c:259-264 | setting "Presence Interval" to 0 succeeds and replans the task at now + 0; that run is a no-op, and afterwards the detector stays frozen until the interval is set non-zero |
| Application.PirHandler | src/application.c:186-207 | a motion pulse adds 1 to the window count and 1 mod 2^16 to the cumulative count; it publishes the new cumulative count iff interval ≠ 0 and next_pub < now, then moves next_pub to now + interval; otherwise the gate is untouched; an error event changes nothing |
| Gates.PassTime | src/application.c:198-205 | the time-only gate opens iff interval ≠ 0 and next_pub < now; on opening the deadline becomes now + interval, which is more than one interval past the old deadline; closed, it is unchanged |
| Gates.PassTimesBounds | src/application.c:198-202 | over any series of calls, the gate opens only at ticks it was called with, the first opening is after the initial deadline, and the final deadline is the last opening + interval (or the initial gate when it never opened) |
| Gates.PassTimesSpacing | app/application.c:198-205 | over any series of calls, consecutive openings are more than one interval apart |
| Gates.PassTimesZeroInterval | app/application.c:198 | with a zero interval the gate never opens and never changes |
| Traces.MotionTrace | app/application.c:193-205 | k motion pulses add k to the window count and k mod 2^16 to the cumulative count, leave flag and configuration alone, end in the gate state the time-only gate reaches over their ticks, and publish as many counts as that gate opens; publishing resets neither counter |
| Traces.MotionPublicationsSpaced | src/application.c:193-205 | over any run of pulses there is one publication per publishing pulse, and the ticks of the publishing pulses are more than the configured interval apart |
| Traces.PubTicksAreOpenings | app/application.c:198-205 | the pulses whose handling published the count are exactly those at which the time-only gate opens over the pulses' ticks |
| Gates.PassDelta | app/application.c:175-181 | the temperature gate opens iff abs(v − last) ≥ delta or next_pub < now; on opening it keeps v and now + interval; closed, it is unchanged; a delta ≤ 0 always opens |
| Gates.PassDeltaSettles | src/application.c:175-181 | with a positive delta, right after publishing a reading the gate stays closed for that same reading until the new deadline has passed |
| Gates.PassDeltasFirst | src/application.c:175-181 | over any series of readings, the first one let through differs from the last published value by at least the delta or comes after the deadline: readings held back do not move the gate |
| Gates.PassDeltasSpacing | src/application.c:175-181 | over any series of readings, each publication differs by at least the delta from the one before it or comes more than one publish interval after it |
| Gates.PassDeltasSnoc | app/application.c:175-181 | one more reading after a series appends it to the publications exactly when the gate, in the state the series left it, opens for it |
| Application.TemperatureHandler | src/application.c:166-184 | a reading is published iff the delta-or-time gate opens, and only the gate state changes; a failed reading or an error event changes nothing |
| Traces.TemperatureTrace | app/application.c:166-184 | over any series of successful readings the node publishes exactly the readings the delta-or-time gate lets through, in order, and changes nothing but the gate state |
| Orientation.Sample | src/application.c:96-115 | a face is emitted iff it differs from the remembered face, and the remembered face becomes the sampled one |
| Orientation.ReportsAreEdges | app/application.c:96-115 | over any series, reports never repeat consecutively, the first differs from the starting face, and the last report is the remembered face |
| Orientation.SamplesLast | src/application.c:102-105 | after a series the remembered face is the latest sample |
| Orientation.ReportsAreSamples | app/application.c:102-114 | there are never more reports than samples, and every report is a sampled face |
| Orientation.Idempotent | src/application.c:96-115 | debouncing the reports again from the same starting face gives them back unchanged |
| Orientation.Examples | app/application.c:96-115 | samples A A B B B A from unknown report A B A; an unknown first sample reports nothing |
| Orientation.SamplesSnoc | src/application.c:102-114 | one more sample after a series appends that sample's report to the series' reports and remembers that sample |
| Application.AccelerometerHandler | app/application.c:80-123 | a classified face is published iff it differs from the remembered one and is then remembered; a failed read or an error changes nothing |
| Traces.OrientationTrace | app/application.c:96-115 | over any series of classified accelerometer updates the node publishes exactly the debouncer's reports, in order, ends remembering the debouncer's face, and changes nothing else |
| Sensitivity.Next | src/application.c:136-143 | after a press the level is at most VERY_HIGH; below VERY_HIGH it goes up by 1, from VERY_HIGH up to 254 it becomes LOW, and 255 wraps to 0 |
| Sensitivity.PressesToLow | app/application.c:136-143 | from any level between LOW and VERY_HIGH, VERY_HIGH − level + 1 presses return to LOW |
| Sensitivity.PressesCycle | src/application.c:138-143 | from LOW, the presses visit LOW+1, …, VERY_HIGH in turn and the next press returns to LOW: a cycle of length exactly VERY_HIGH − LOW + 1 |
| Application.ButtonHandler | src/application.c:126-149 | a hold cycles only the configured sensitivity (up by one below VERY_HIGH, back to LOW from VERY_HIGH up to 254, and 255 wraps to 0) and hands nothing to the PIR driver; other button events change no state |
| Configuration.Lookup | app/application.c:233-300 | a name that matches a parameter yields the parameter with exactly that name; any other name yields none, since no parameter has that name |
| Configuration.ParamsComplete | src/application.c:304-317 | every parameter is listed in the report order, each at exactly one position |
| Configuration.LookupName | app/application.c:233-298 | every parameter is found again by its own name, so no two parameters share a name |
| Configuration.Set | src/application.c:231-298 | setting changes exactly the named field, to the value truncated to a byte, to value·1000 mod 2^32, or to value/10 |
| Configuration.FieldsDetermineConfig | src/application.c:40-59 | the parameters cover the whole record: records that agree on every parameter are equal |
| Configuration.ReportAfterSet | src/application.c:238-317 | reading back after a set gives the seconds written when value·1000 < 2^32 (and less than written otherwise), value mod 256 for a byte field, value/10 for the delta; no other parameter's report changes |
| Configuration.DefaultConfigSane | src/application.c:63-77 | the defaults keep leave below enter, run the window and the motion gate, and hold whole seconds |
| Application.ConfigSet | app/application.c:211-301 | an unparsed command or an unknown name fails with no change; a known name succeeds and writes only that parameter; sensitivity, thermometer, accelerometer and battery values go to their drivers; a new window interval replans the task at now + new interval; nothing else changes |
| Application.GetAfterSet | app/application.c:240-319 | setting any parameter by its name succeeds, and the get report then lists the name with the seconds written (when they fit), the value mod 256, or the tenths as degrees |
| Configuration.Report | src/application.c:304-317 | an interval is reported in whole seconds, rounded down from the stored milliseconds; the sensitivity, the thresholds and the delta are reported as stored |
| Application.ConfigGet | src/application.c:302-320 | the get command changes nothing and emits one line per parameter, in the console's order, each parameter's name with its report |
| Application.Init | src/application.c:25-38 | the node starts with the loaded configuration, zero counters, the flag clear, both publish deadlines at 0, the last published temperature 0.0 and the face unknown (line 96); it plans the window task one window after start (line 388) |
| Application.FirstPublications | src/application.c:25-38 | right after initialisation, the first pulse after tick 0 publishes count 1 (motion gate on), the first temperature reading is published, a first known face is published, and a window before any pulse reports absent with 0 pulses |

## Left out

- The LED, button scanning, radio initialisation and pairing, and the I²C drivers.
  A publication or a driver setting is an event in the handler's output. The exact
  SDK calls and topics are not modelled.
- The battery handler. It forwards every successful voltage reading to the radio
  and has no gate of its own, so it holds no decision logic.
- `config_init`, `config_save` and `config_reset`, and the `&F` and `&W` commands.
  These are persistence calls into the SDK, whose behaviour is not visible here.
  `Application.Init` takes the loaded record as a parameter.
- The dice classifier (`dice_feed_vectors`, `dice_get_face`). It is floating-point
  geometry in the SDK. The face label is an input.
- Floating point. Temperatures and the publish delta are `real`, so `fabsf` and the
  division by 10.0 are exact.
- Configuration.Report: the delta is reported as a real. The `%.1f` rounding of the
  printed value is not modelled.
- Console tokenising and printing. A parsed command is an input of type
  `Option<Command>`. Names longer than the 32-byte buffer, a missing comma and a bad
  number are all `None`. The `$CONFIG` report is a list of (name, value) lines.
- The scheduler. `presenceDue` records the tick the window task last asked for. The
  model does not state when the scheduler runs the task, nor that a task that does
  not replan itself stays unscheduled.
- The 64-bit wrap-around of the tick counter: `Tick` is unbounded, and so is
  `now + interval`.
- Application.PirHandler: the window count is an unbounded `nat`, so the overflow
  of the C `int` counter is not modelled.
- Sensitivity.Next: the numeric values of the PIR sensitivity enumeration are not
  fixed. LOW and VERY_HIGH are parameters (`Sensitivity.Levels`), and VERY_HIGH is
  assumed to be below 255.
- Application.Init: the driver settings made during initialisation (battery,
  thermometer and accelerometer update intervals, PIR sensitivity MEDIUM) are not
  events of the model. `Init` returns only the node's state.
- The `leave.interval` field of the configuration. It is never read or written.
- The `PIR Event Count` console print in the PIR handler.

=== FILE: application.dfy ===
/** The handlers of the motion-detector application, each a pure step from
    the node's state to its next state and the events it emits. The radio
    publications and the driver settings a handler performs are the events;
    the scheduler's tick is an input. */
module Application {

  import opened Wrappers
  import opened Bounded
  import opened Configuration
  import opened Gates
  import opened Presence
  import opened Orientation
  import Sensitivity

  /** What a handler hands to the outside world. */
  datatype Event =
    | OrientationPublished(face: Face)
    | PirMotionCountPublished(count: uint16)
    | TemperaturePublished(celsius: real)
    | PresenceStatePublished(state: int)
    | PresenceEventsPublished(events: int)
    | PirSensitivitySet(level: uint8)
    | TemperatureUpdateIntervalSet(interval: Tick)
    | AccelerometerUpdateIntervalSet(interval: Tick)
    | BatteryUpdateIntervalSet(interval: Tick)
    | ConfigLine(name: string, value: Value)

  /** The state the application keeps between handler calls. `presenceDue` is
      the tick the presence window task last asked to be run at. */
  datatype Node = Node(
    config: Config,
    detector: Detector,
    pirEventCount: uint16,
    pirGate: TimeGate,
    temperatureGate: DeltaGate,
    lastFace: Face,
    presenceDue: Option<Tick>)

  datatype Step = Step(node: Node, events: seq<Event>)

  /** The state after initialisation with the configuration `c` loaded from
      the store, at tick `now`: the window task is planned one window ahead. */
  function Init(c: Config, now: Tick): (n: Node)
    ensures n.config == c && n.detector == Detector(0, false)
    ensures n.pirEventCount == 0 && n.pirGate.nextPub == 0
    ensures n.temperatureGate == DeltaGate(0.0, 0)
    ensures n.lastFace == Unknown
    ensures n.presenceDue == Some(now + c.enterInterval)
  {
    Node(c, InitialDetector, 0, TimeGate(0), InitialDeltaGate, Unknown, Some(now + c.enterInterval))
  }

  /** Right after initialisation every publication is due: the first motion
      pulse after tick 0 publishes the count 1 (unless the motion gate is
      off), the first temperature reading after tick 0 is published, the
      first classified face is published unless it is unknown, and a window
      task that runs before any pulse reports absent with no pulses. */
  lemma FirstPublications(c: Config, start: Tick, now: Tick, v: real, f: Face)
    requires now > 0
    ensures c.pirPubMinInterval != 0 ==>
      PirHandler(Init(c, start), now, Motion).events == [PirMotionCountPublished(1)]
    ensures TemperatureHandler(Init(c, start), now, Update(Some(v))).events == [TemperaturePublished(v)]
    ensures AccelerometerHandler(Init(c, start), Update(Some(f))).events != [] <==> f != Unknown
    ensures c.enterInterval != 0 ==>
      PresenceTask(Init(c, start), now).events == [PresenceStatePublished(0), PresenceEventsPublished(0)]
  {
  }

  // ---------------------------------------------------------------------------
  // Presence window task

  /** The end of a presence window. A zero window interval makes the task
      return at once; otherwise it applies the hysteresis rule, publishes the
      flag and the window's pulse count, clears the count and plans itself one
      window later. */
  function PresenceTask(n: Node, now: Tick): (r: Step)
    ensures n.config.enterInterval == 0 ==> r == Step(n, [])
    ensures n.config.enterInterval != 0 ==>
      && r.node.detector.present
           == Hysteresis(n.detector.present, n.detector.count, n.config.enterThreshold, n.config.leaveThreshold)
      && r.node.detector.count == 0
      && |r.events| == 2
      && (r.events[0] == PresenceStatePublished(1) <==> r.node.detector.present)
      && (r.events[0] == PresenceStatePublished(0) <==> !r.node.detector.present)
      && r.events[1] == PresenceEventsPublished(n.detector.count)
      && r.node.presenceDue == Some(now + n.config.enterInterval)
      && r.node == n.(detector := r.node.detector, presenceDue := r.node.presenceDue)
  {
    if n.config.enterInterval == 0 then Step(n, [])
    else
      var present := Evaluate(n.detector.present, n.detector.count, n.config.enterThreshold, n.config.leaveThreshold);
      Step(n.(detector := Detector(0, present), presenceDue := Some(now + n.config.enterInterval)),
           [PresenceStatePublished(if present then 1 else 0), PresenceEventsPublished(n.detector.count)])
  }

  // ---------------------------------------------------------------------------
  // PIR module

  datatype PirEvent = Motion | PirError

  /** A PIR event. Each motion pulse counts in the presence window and in the
      16-bit cumulative counter; the cumulative count is published when the
      time-only gate opens. Publishing resets neither counter. */
  function PirHandler(n: Node, now: Tick, event: PirEvent): (r: Step)
    ensures event == PirError ==> r == Step(n, [])
    ensures event == Motion ==>
      && r.node.detector == n.detector.(count := n.detector.count + 1)
      && r.node.pirEventCount == (n.pirEventCount + 1) % TWO_16
      && (r.events != [] <==> n.config.pirPubMinInterval != 0 && n.pirGate.nextPub < now)
      && (r.events != [] ==> r.events == [PirMotionCountPublished(r.node.pirEventCount)]
                               && r.node.pirGate.nextPub == now + n.config.pirPubMinInterval)
      && (r.events == [] ==> r.node.pirGate == n.pirGate)
      && r.node == n.(detector := r.node.detector, pirEventCount := r.node.pirEventCount, pirGate := r.node.pirGate)
  {
    match event
    case PirError => Step(n, [])
    case Motion =>
      var count := ToUint16(n.pirEventCount + 1);
      var gate := PassTime(n.pirGate, n.config.pirPubMinInterval, now);
      Step(n.(detector := n.detector.(count := n.detector.count + 1), pirEventCount := count, pirGate := gate.gate),
           if gate.open then [PirMotionCountPublished(count)] else [])
  }

  // ---------------------------------------------------------------------------
  // Sensor drivers that deliver a reading

  /** An update whose reading may have failed (`None`), or a driver error. */
  datatype SensorEvent<T> = Update(reading: Option<T>) | SensorError

  /** A thermometer event. A successful reading is published when it differs
      from the last published one by at least the configured delta or when the
      publish deadline has passed; a failed reading or an error changes nothing. */
  function TemperatureHandler(n: Node, now: Tick, event: SensorEvent<real>): (r: Step)
    ensures !(event.Update? && event.reading.Some?) ==> r == Step(n, [])
    ensures event.Update? && event.reading.Some? ==>
      var v := event.reading.value;
      var g := n.temperatureGate;
      && (r.events != [] <==> Abs(v - g.value) >= n.config.temperaturePublishValueChange || g.nextPub < now)
      && (r.events != [] ==> r.events == [TemperaturePublished(v)]
                               && r.node.temperatureGate == DeltaGate(v, now + n.config.temperaturePublishInterval))
      && (r.events == [] ==> r.node == n)
      && r.node == n.(temperatureGate := r.node.temperatureGate)
  {
    match event
    case SensorError => Step(n, [])
    case Update(None) => Step(n, [])
    case Update(Some(v)) =>
      var gate := PassDelta(n.temperatureGate, v, n.config.temperaturePublishValueChange,
                            n.config.temperaturePublishInterval, now);
      Step(n.(temperatureGate := gate.gate), if gate.open then [TemperaturePublished(v)] else [])
  }

  /** The publications of a series of reported faces. */
  function OrientationEvents(faces: seq<Face>): (r: seq<Event>)
    ensures |r| == |faces|
    ensures forall i :: 0 <= i < |r| ==> r[i] == OrientationPublished(faces[i])
  {
    seq(|faces|, i requires 0 <= i < |faces| => OrientationPublished(faces[i]))
  }

  /** An accelerometer event, after the external classifier has turned a
      successful reading into a face. The face is published only when it
      differs from the one remembered, and is then remembered. */
  function AccelerometerHandler(n: Node, event: SensorEvent<Face>): (r: Step)
    ensures !(event.Update? && event.reading.Some?) ==> r == Step(n, [])
    ensures event.Update? && event.reading.Some? ==>
      && (r.events != [] <==> event.reading.value != n.lastFace)
      && (r.events != [] ==> r.events == [OrientationPublished(event.reading.value)])
      && r.node == n.(lastFace := event.reading.value)
  {
    match event
    case SensorError => Step(n, [])
    case Update(None) => Step(n, [])
    case Update(Some(face)) =>
      var d := Orientation.Sample(n.lastFace, face);
      Step(n.(lastFace := d.last), OrientationEvents(d.emitted))
  }

  // ---------------------------------------------------------------------------
  // Button

  datatype ButtonEvent = Press | Release | Click | Hold

  /** A button event. A long press cycles the PIR sensitivity in the
      configuration; it does not pass the new level to the PIR driver. Other
      button events only drive the LED. */
  function ButtonHandler(n: Node, levels: Sensitivity.Levels, event: ButtonEvent): (r: Step)
    requires levels.Valid()
    ensures r.events == []
    ensures event != Hold ==> r.node == n
    ensures event == Hold ==>
      && r.node.config.pirSensitivity <= levels.veryHigh
      && (n.config.pirSensitivity < levels.veryHigh ==> r.node.config.pirSensitivity == n.config.pirSensitivity + 1)
      && (levels.veryHigh <= n.config.pirSensitivity < TWO_8 - 1 ==> r.node.config.pirSensitivity == levels.low)
      && (n.config.pirSensitivity == TWO_8 - 1 ==> r.node.config.pirSensitivity == 0)
      && r.node == n.(config := n.config.(pirSensitivity := r.node.config.pirSensitivity))
  {
    if event == Hold then
      Step(n.(config := n.config.(pirSensitivity := Sensitivity.Next(n.config.pirSensitivity, levels))), [])
    else
      Step(n, [])
  }

  // ---------------------------------------------------------------------------
  // Console

  /** A parsed `$CONFIG` set command: a parameter name and an unsigned value. */
  datatype Command = Command(name: string, value: uint32)

  /** The parameters whose new value is handed to a driver when set. */
  const DriverParams: set<Param> :=
    {PirSensitivity, TemperatureMeasureInterval, AccelerometerMeasureInterval, BatteryPublishInterval}

  datatype SetOutcome = SetOutcome(ok: bool, node: Node, events: seq<Event>)

  /** The set command. A command that did not parse, or whose name is not a
      parameter, fails and changes nothing. Otherwise the one parameter is
      written; the PIR sensitivity and the thermometer, accelerometer and
      battery intervals are handed to their drivers, and a new window interval
      replans the window task one (new) interval from now. */
  function ConfigSet(n: Node, now: Tick, command: Option<Command>): (r: SetOutcome)
    ensures (command.None? || Lookup(command.value.name).None?) ==> r == SetOutcome(false, n, [])
    ensures command.Some? && Lookup(command.value.name).Some? ==>
      var p := Lookup(command.value.name).value;
      var v := command.value.value;
      && r.ok
      && r.node.config == Set(n.config, p, v)
      && r.node == n.(config := r.node.config, presenceDue := r.node.presenceDue)
      && (p == PresenceInterval ==> r.node.presenceDue == Some(now + ToUint32(v as int * 1000)))
      && (p != PresenceInterval ==> r.node.presenceDue == n.presenceDue)
      && (p == PirSensitivity ==> r.events == [PirSensitivitySet(ToUint8(v))])
      && (p == TemperatureMeasureInterval ==> r.events == [TemperatureUpdateIntervalSet(ToUint32(v as int * 1000))])
      && (p == AccelerometerMeasureInterval ==> r.events == [AccelerometerUpdateIntervalSet(ToUint32(v as int * 1000))])
      && (p == BatteryPublishInterval ==> r.events == [BatteryUpdateIntervalSet(ToUint32(v as int * 1000))])
      && (p !in DriverParams ==> r.events == [])
  {
    match command
    case None => SetOutcome(false, n, [])
    case Some(Command(name, v)) =>
      match Lookup(name)
      case None => SetOutcome(false, n, [])
      case Some(p) =>
        var c := Set(n.config, p, v);
        match p
        case PirSensitivity => SetOutcome(true, n.(config := c), [PirSensitivitySet(c.pirSensitivity)])
        case PresenceInterval => SetOutcome(true, n.(config := c, presenceDue := Some(now + c.enterInterval)), [])
        case TemperatureMeasureInterval =>
          SetOutcome(true, n.(config := c), [TemperatureUpdateIntervalSet(c.temperatureMeasureInterval)])
        case AccelerometerMeasureInterval =>
          SetOutcome(true, n.(config := c), [AccelerometerUpdateIntervalSet(c.accelerometerMeasureInterval)])
        case BatteryPublishInterval =>
          SetOutcome(true, n.(config := c), [BatteryUpdateIntervalSet(c.batteryPublishInterval)])
        case _ => SetOutcome(true, n.(config := c), [])
  }

  /** The get command: one line per parameter, in the console's order. */
  function ConfigGet(n: Node): (r: Step)
    ensures r.node == n
    ensures |r.events| == |Params|
    ensures forall i :: 0 <= i < |r.events| ==> r.events[i] == ConfigLine(Name(Params[i]), Report(n.config, Params[i]))
    ensures forall p: Param :: r.events[Index(p)] == ConfigLine(Name(p), Report(n.config, p))
  {
    var lines := Lines(n.config);
    Step(n, seq(|lines|, i requires 0 <= i < |lines| => ConfigLine(lines[i].0, lines[i].1)))
  }

  /** Reading a parameter back after setting it by name: its line reports the
      seconds written (when their milliseconds fit in 32 bits), the byte
      parameters report the value modulo 256, the temperature delta the tenths
      as degrees. */
  lemma GetAfterSet(n: Node, now: Tick, p: Param, v: uint32)
    ensures var s := ConfigSet(n, now, Some(Command(Name(p), v)));
      var g := ConfigGet(s.node);
      && s.ok
      && (UnitOf(p) == Seconds && v as int * 1000 < TWO_32 ==> ConfigLine(Name(p), Whole(v)) in g.events)
      && (UnitOf(p) == Truncated ==> ConfigLine(Name(p), Whole(v % TWO_8)) in g.events)
      && (UnitOf(p) == Tenths ==> ConfigLine(Name(p), Decimal(v as real / 10.0)) in g.events)
  {
    LookupName(p);
    var s := ConfigSet(n, now, Some(Command(Name(p), v)));
    ReportAfterSet(n.config, p, v);
    var i := Index(p);
    assert ConfigGet(s.node).events[i] == ConfigLine(Name(p), Report(s.node.config, p));
  }

  // ---------------------------------------------------------------------------
  // Dispatch

  /** Everything that can call into the application. */
  datatype Input =
    | PirInput(now: Tick, pirEvent: PirEvent)
    | TemperatureInput(now: Tick, temperatureEvent: SensorEvent<real>)
    | AccelerometerInput(accelerometerEvent: SensorEvent<Face>)
    | ButtonInput(buttonEvent: ButtonEvent)
    | ConfigSetInput(now: Tick, command: Option<Command>)
    | ConfigGetInput
    | PresenceTaskInput(now: Tick)

  function Handle(n: Node, levels: Sensitivity.Levels, input: Input): Step
    requires levels.Valid()
  {
    match input
    case PirInput(now, e) => PirHandler(n, now, e)
    case TemperatureInput(now, e) => TemperatureHandler(n, now, e)
    case AccelerometerInput(e) => AccelerometerHandler(n, e)
    case ButtonInput(e) => ButtonHandler(n, levels, e)
    case ConfigSetInput(now, c) => var s := ConfigSet(n, now, c); Step(s.node, s.events)
    case ConfigGetInput => ConfigGet(n)
    case PresenceTaskInput(now) => PresenceTask(n, now)
  }

  /** A series of inputs, handled one after the other; the events are
      concatenated in order. */
  function Run(n: Node, levels: Sensitivity.Levels, inputs: seq<Input>): Step
    requires levels.Valid()
    decreases |inputs|
  {
    if inputs == [] then Step(n, [])
    else
      var before := Run(n, levels, inputs[..|inputs| - 1]);
      var last := Handle(before.node, levels, inputs[|inputs| - 1]);
      Step(last.node, before.events + last.events)
  }
}

=== FILE: bounded.dfy ===
/** The fixed-width unsigned integers of the firmware, and the conversion C
    applies when a wider value is stored into one of them: the value is kept
    modulo 2^width. */
module Bounded {

  const TWO_8: int := 0x100
  const TWO_16: int := 0x1_0000
  const TWO_32: int := 0x1_0000_0000

  type uint8 = x: int | 0 <= x < 0x100
  type uint16 = x: int | 0 <= x < 0x1_0000
  type uint32 = x: int | 0 <= x < 0x1_0000_0000

  /** An integer stored into a `uint8_t`. */
  function ToUint8(x: int): (r: uint8)
    ensures 0 <= x < TWO_8 ==> r == x
    ensures (x - r) % TWO_8 == 0
  {
    x % TWO_8
  }

  /** An integer stored into a `uint16_t`. */
  function ToUint16(x: int): (r: uint16)
    ensures 0 <= x < TWO_16 ==> r == x
    ensures (x - r) % TWO_16 == 0
  {
    x % TWO_16
  }

  /** An integer stored into a `uint32_t`. */
  function ToUint32(x: int): (r: uint32)
    ensures 0 <= x < TWO_32 ==> r == x
    ensures (x - r) % TWO_32 == 0
  {
    x % TWO_32
  }
}

=== FILE: configuration.dfy ===
/** The runtime configuration record of the motion detector and the `$CONFIG`
    console command that reads and writes it, one named parameter at a time. */
module Configuration {

  import opened Wrappers
  import opened Bounded

  /** Milliseconds of the scheduler's tick counter. */
  type Tick = nat

  datatype Config = Config(
    pirSensitivity: uint8,
    pirPubMinInterval: Tick,
    enterThreshold: uint8,
    leaveThreshold: uint8,
    enterInterval: Tick,
    temperatureMeasureInterval: Tick,
    temperaturePublishInterval: Tick,
    temperaturePublishValueChange: real,
    accelerometerMeasureInterval: Tick,
    batteryPublishInterval: Tick)

  /** The compiled-in defaults. */
  const DefaultConfig: Config := Config(
    pirSensitivity := 1,
    pirPubMinInterval := 60 * 1000,
    enterThreshold := 4,
    leaveThreshold := 2,
    enterInterval := 2 * 60 * 1000,
    temperatureMeasureInterval := 5 * 1000,
    temperaturePublishInterval := 15 * 60 * 1000,
    temperaturePublishValueChange := 1.0,
    accelerometerMeasureInterval := 5 * 1000,
    batteryPublishInterval := 60 * 60 * 1000)

  /** The parameters the console can name. */
  datatype Param =
    | PirSensitivity
    | PirPublishMinInterval
    | PresenceEnterThreshold
    | PresenceLeaveThreshold
    | PresenceInterval
    | TemperatureMeasureInterval
    | TemperaturePublishInterval
    | TemperaturePublishValueChange
    | AccelerometerMeasureInterval
    | BatteryPublishInterval

  /** Every parameter, in the order the console lists them. */
  const Params: seq<Param> := [
    PirSensitivity, PirPublishMinInterval,
    PresenceEnterThreshold, PresenceLeaveThreshold, PresenceInterval,
    TemperatureMeasureInterval, TemperaturePublishInterval, TemperaturePublishValueChange,
    AccelerometerMeasureInterval,
    BatteryPublishInterval]

  function Name(p: Param): string
  {
    match p
    case PirSensitivity => "PIR Sensitivity"
    case PirPublishMinInterval => "PIR Publish Min Interval"
    case PresenceEnterThreshold => "Presence Enter Threshold"
    case PresenceLeaveThreshold => "Presence Leave Threshold"
    case PresenceInterval => "Presence Interval"
    case TemperatureMeasureInterval => "Temperature Measure Interval"
    case TemperaturePublishInterval => "Temperature Publish Interval"
    case TemperaturePublishValueChange => "Temperature Publish Value Change"
    case AccelerometerMeasureInterval => "Accelerometer Measure Interval"
    case BatteryPublishInterval => "Battery Publish Interval"
  }

  /** The name dispatch of the set command: the names are compared one after
      the other, and a name that matches none is not a parameter. */
  function Lookup(name: string): (r: Option<Param>)
    ensures r.Some? ==> Name(r.value) == name
    ensures r.None? ==> forall p: Param :: Name(p) != name
  {
    if name == "PIR Sensitivity" then Some(PirSensitivity)
    else if name == "PIR Publish Min Interval" then Some(PirPublishMinInterval)
    else if name == "Presence Enter Threshold" then Some(PresenceEnterThreshold)
    else if name == "Presence Leave Threshold" then Some(PresenceLeaveThreshold)
    else if name == "Presence Interval" then Some(PresenceInterval)
    else if name == "Temperature Measure Interval" then Some(TemperatureMeasureInterval)
    else if name == "Temperature Publish Interval" then Some(TemperaturePublishInterval)
    else if name == "Temperature Publish Value Change" then Some(TemperaturePublishValueChange)
    else if name == "Accelerometer Measure Interval" then Some(AccelerometerMeasureInterval)
    else if name == "Battery Publish Interval" then Some(BatteryPublishInterval)
    else None
  }

  /** The position of a parameter in the console's order. */
  function Index(p: Param): (i: nat)
    ensures i < |Params| && Params[i] == p
  {
    match p
    case PirSensitivity => 0
    case PirPublishMinInterval => 1
    case PresenceEnterThreshold => 2
    case PresenceLeaveThreshold => 3
    case PresenceInterval => 4
    case TemperatureMeasureInterval => 5
    case TemperaturePublishInterval => 6
    case TemperaturePublishValueChange => 7
    case AccelerometerMeasureInterval => 8
    case BatteryPublishInterval => 9
  }

  /** Every parameter is listed exactly once in the console's order. */
  lemma ParamsComplete(p: Param)
    ensures p in Params
    ensures forall i :: 0 <= i < |Params| ==> Index(Params[i]) == i
  {
  }

  /** Every parameter is found again by its own name. */
  lemma LookupName(p: Param)
    ensures Lookup(Name(p)) == Some(p)
  {
  }

  /** How the console value of a parameter is turned into the stored value. */
  datatype Unit =
    | Truncated   // stored into a uint8_t
    | Seconds     // seconds on the console, milliseconds stored, multiplied in uint32_t
    | Tenths      // tenths of a degree on the console, degrees stored

  function UnitOf(p: Param): Unit
  {
    match p
    case PirSensitivity | PresenceEnterThreshold | PresenceLeaveThreshold => Truncated
    case TemperaturePublishValueChange => Tenths
    case _ => Seconds
  }

  /** A stored or reported value: a whole number, or the one real parameter. */
  datatype Value = Whole(n: int) | Decimal(x: real)

  /** The stored field a parameter names. */
  function Field(c: Config, p: Param): Value
  {
    match p
    case PirSensitivity => Whole(c.pirSensitivity)
    case PirPublishMinInterval => Whole(c.pirPubMinInterval)
    case PresenceEnterThreshold => Whole(c.enterThreshold)
    case PresenceLeaveThreshold => Whole(c.leaveThreshold)
    case PresenceInterval => Whole(c.enterInterval)
    case TemperatureMeasureInterval => Whole(c.temperatureMeasureInterval)
    case TemperaturePublishInterval => Whole(c.temperaturePublishInterval)
    case TemperaturePublishValueChange => Decimal(c.temperaturePublishValueChange)
    case AccelerometerMeasureInterval => Whole(c.accelerometerMeasureInterval)
    case BatteryPublishInterval => Whole(c.batteryPublishInterval)
  }

  /** Two records that agree on every parameter are the same record: the
      parameters cover the whole configuration. */
  lemma FieldsDetermineConfig(c: Config, d: Config)
    requires forall p: Param :: Field(c, p) == Field(d, p)
    ensures c == d
  {
    assert Field(c, PirSensitivity) == Field(d, PirSensitivity);
    assert Field(c, PirPublishMinInterval) == Field(d, PirPublishMinInterval);
    assert Field(c, PresenceEnterThreshold) == Field(d, PresenceEnterThreshold);
    assert Field(c, PresenceLeaveThreshold) == Field(d, PresenceLeaveThreshold);
    assert Field(c, PresenceInterval) == Field(d, PresenceInterval);
    assert Field(c, TemperatureMeasureInterval) == Field(d, TemperatureMeasureInterval);
    assert Field(c, TemperaturePublishInterval) == Field(d, TemperaturePublishInterval);
    assert Field(c, TemperaturePublishValueChange) == Field(d, TemperaturePublishValueChange);
    assert Field(c, AccelerometerMeasureInterval) == Field(d, AccelerometerMeasureInterval);
    assert Field(c, BatteryPublishInterval) == Field(d, BatteryPublishInterval);
  }

  /** The value stored for console value `v` of a parameter with unit `u`. */
  function Stored(u: Unit, v: uint32): Value
  {
    match u
    case Truncated => Whole(ToUint8(v))
    case Seconds => Whole(ToUint32(v as int * 1000))
    case Tenths => Decimal(v as real / 10.0)
  }

  /** Writing console value `v` to parameter `p`: exactly that one field
      changes, to the converted value. */
  function Set(c: Config, p: Param, v: uint32): (r: Config)
    ensures Field(r, p) == Stored(UnitOf(p), v)
    ensures forall q: Param :: q != p ==> Field(r, q) == Field(c, q)
  {
    match p
    case PirSensitivity => c.(pirSensitivity := ToUint8(v))
    case PirPublishMinInterval => c.(pirPubMinInterval := ToUint32(v as int * 1000))
    case PresenceEnterThreshold => c.(enterThreshold := ToUint8(v))
    case PresenceLeaveThreshold => c.(leaveThreshold := ToUint8(v))
    case PresenceInterval => c.(enterInterval := ToUint32(v as int * 1000))
    case TemperatureMeasureInterval => c.(temperatureMeasureInterval := ToUint32(v as int * 1000))
    case TemperaturePublishInterval => c.(temperaturePublishInterval := ToUint32(v as int * 1000))
    case TemperaturePublishValueChange => c.(temperaturePublishValueChange := v as real / 10.0)
    case AccelerometerMeasureInterval => c.(accelerometerMeasureInterval := ToUint32(v as int * 1000))
    case BatteryPublishInterval => c.(batteryPublishInterval := ToUint32(v as int * 1000))
  }

  /** The value the console reports for a parameter: intervals in whole
      seconds (integer division of the milliseconds), the temperature delta
      in degrees, everything else as stored. */
  function Report(c: Config, p: Param): (r: Value)
    ensures UnitOf(p) == Seconds ==>
      r.Whole? && Field(c, p).Whole? && r.n * 1000 <= Field(c, p).n < r.n * 1000 + 1000
    ensures UnitOf(p) != Seconds ==> r == Field(c, p)
  {
    match Field(c, p)
    case Whole(n) => if UnitOf(p) == Seconds then Whole(n / 1000) else Whole(n)
    case Decimal(x) => Decimal(x)
  }

  /** The report of the get command: one (name, value) line per parameter. */
  function Lines(c: Config): (r: seq<(string, Value)>)
    ensures |r| == |Params|
    ensures forall i :: 0 <= i < |r| ==> r[i] == (Name(Params[i]), Report(c, Params[i]))
  {
    seq(|Params|, i requires 0 <= i < |Params| => (Name(Params[i]), Report(c, Params[i])))
  }

  /** Reading a parameter back after writing it: an interval reports the
      seconds written as long as their milliseconds fit in 32 bits (and less
      than was written otherwise), a byte parameter reports the value modulo
      256, the temperature delta reports the tenths as degrees; no other
      parameter's report changes. */
  lemma ReportAfterSet(c: Config, p: Param, v: uint32)
    ensures UnitOf(p) == Seconds && v as int * 1000 < TWO_32 ==> Report(Set(c, p, v), p) == Whole(v)
    ensures UnitOf(p) == Seconds && v as int * 1000 >= TWO_32 ==>
              Report(Set(c, p, v), p).Whole? && Report(Set(c, p, v), p).n < v
    ensures UnitOf(p) == Truncated ==> Report(Set(c, p, v), p) == Whole(v % TWO_8)
    ensures UnitOf(p) == Tenths ==> Report(Set(c, p, v), p) == Decimal(v as real / 10.0)
    ensures forall q: Param :: q != p ==> Report(Set(c, p, v), q) == Report(c, q)
  {
  }

  /** The default record keeps the leave threshold below the enter threshold
      and runs the presence window. */
  lemma DefaultConfigSane()
    ensures DefaultConfig.leaveThreshold < DefaultConfig.enterThreshold
    ensures DefaultConfig.enterInterval != 0 && DefaultConfig.pirPubMinInterval != 0
    ensures forall p: Param :: UnitOf(p) == Seconds ==> Report(DefaultConfig, p).n * 1000 == Field(DefaultConfig, p).n
  {
  }
}

=== FILE: gates.dfy ===
/** The two publish gates of the firmware. The motion-count gate looks only at
    time and is switched off by a zero interval; the temperature gate opens on
    a large enough change or once its deadline has passed. Both compare the
    deadline strictly (`next_pub < now`) and, when they open, move it to
    `now + interval`. */
module Gates {

  import opened Configuration

  /** Whether the gate opened, and its state afterwards. */
  datatype Verdict<G> = Verdict(open: bool, gate: G)

  /** The motion-count gate: the tick before which no count is published. */
  datatype TimeGate = TimeGate(nextPub: Tick)

  function PassTime(g: TimeGate, interval: Tick, now: Tick): (r: Verdict<TimeGate>)
    ensures r.open <==> interval != 0 && g.nextPub < now
    ensures r.open ==> r.gate.nextPub == now + interval && r.gate.nextPub > g.nextPub + interval
    ensures !r.open ==> r.gate == g
  {
    if interval != 0 && g.nextPub < now then Verdict(true, TimeGate(now + interval))
    else Verdict(false, g)
  }

  /** The ticks at which the motion-count gate opens over a series of calls
      with one interval, and its state after them. */
  datatype Openings = Openings(gate: TimeGate, openedAt: seq<Tick>)

  function PassTimes(g: TimeGate, interval: Tick, times: seq<Tick>): Openings
    decreases |times|
  {
    if times == [] then Openings(g, [])
    else
      var v := PassTime(g, interval, times[0]);
      var rest := PassTimes(v.gate, interval, times[1..]);
      Openings(rest.gate, (if v.open then [times[0]] else []) + rest.openedAt)
  }

  /** The gate opens only at ticks it was called with and only after its
      current deadline; the final deadline is `interval` after the last
      opening, or the initial one when the gate never opened. */
  lemma {:induction false} PassTimesBounds(g: TimeGate, interval: Tick, times: seq<Tick>)
    ensures var openedAt := PassTimes(g, interval, times).openedAt;
      && (forall k :: 0 <= k < |openedAt| ==> openedAt[k] in times)
      && (openedAt != [] ==> openedAt[0] > g.nextPub)
      && (openedAt == [] ==> PassTimes(g, interval, times).gate == g)
      && (openedAt != [] ==> PassTimes(g, interval, times).gate.nextPub == openedAt[|openedAt| - 1] + interval)
    decreases |times|
  {
    if times != [] {
      var v := PassTime(g, interval, times[0]);
      var rest := PassTimes(v.gate, interval, times[1..]);
      PassTimesBounds(v.gate, interval, times[1..]);
      var openedAt := (if v.open then [times[0]] else []) + rest.openedAt;
      assert PassTimes(g, interval, times) == Openings(rest.gate, openedAt);
      forall k | 0 <= k < |rest.openedAt|
        ensures rest.openedAt[k] in times
      {
        assert rest.openedAt[k] in times[1..];
      }
      if v.open {
        assert openedAt[1..] == rest.openedAt;
      } else {
        assert openedAt == rest.openedAt;
      }
    }
  }

  /** Consecutive ticks are more than `interval` apart. */
  predicate Spaced(ticks: seq<Tick>, interval: Tick)
  {
    forall k :: 0 <= k < |ticks| - 1 ==> ticks[k + 1] > ticks[k] + interval
  }

  /** Whatever the call pattern, consecutive openings of the gate are more
      than `interval` apart. */
  lemma {:induction false} PassTimesSpacing(g: TimeGate, interval: Tick, times: seq<Tick>)
    ensures Spaced(PassTimes(g, interval, times).openedAt, interval)
    decreases |times|
  {
    if times != [] {
      var v := PassTime(g, interval, times[0]);
      var rest := PassTimes(v.gate, interval, times[1..]);
      PassTimesSpacing(v.gate, interval, times[1..]);
      var later := rest.openedAt;
      var openedAt := (if v.open then [times[0]] else []) + later;
      assert PassTimes(g, interval, times) == Openings(rest.gate, openedAt);
      if v.open {
        PassTimesBounds(v.gate, interval, times[1..]);
      }
      forall k | 0 <= k < |openedAt| - 1
        ensures openedAt[k + 1] > openedAt[k] + interval
      {
        assert Spaced(later, interval);
        if !v.open {
          assert openedAt[k] == later[k] && openedAt[k + 1] == later[k + 1];
        } else if k > 0 {
          assert openedAt[k] == later[k - 1] && openedAt[k + 1] == later[(k - 1) + 1];
        } else {
          assert openedAt[0] == times[0] && openedAt[1] == later[0];
        }
      }
    }
  }

  /** One more call after a series. */
  lemma {:induction false} PassTimesSnoc(g: TimeGate, interval: Tick, times: seq<Tick>, t: Tick)
    ensures var before := PassTimes(g, interval, times);
      var v := PassTime(before.gate, interval, t);
      PassTimes(g, interval, times + [t]) == Openings(v.gate, before.openedAt + (if v.open then [t] else []))
    decreases |times|
  {
    if times == [] {
      assert times + [t] == [t];
    } else {
      var v0 := PassTime(g, interval, times[0]);
      PassTimesSnoc(v0.gate, interval, times[1..], t);
      assert (times + [t])[0] == times[0];
      assert (times + [t])[1..] == times[1..] + [t];
    }
  }

  /** A zero interval switches the motion-count gate off for good. */
  lemma {:induction false} PassTimesZeroInterval(g: TimeGate, times: seq<Tick>)
    ensures PassTimes(g, 0, times) == Openings(g, [])
    decreases |times|
  {
    if times != [] {
      PassTimesZeroInterval(g, times[1..]);
    }
  }

  function Abs(x: real): (r: real)
    ensures r >= 0.0 && (r == x || r == -x)
  {
    if x < 0.0 then -x else x
  }

  /** The temperature gate: the last published value and the publish deadline. */
  datatype DeltaGate = DeltaGate(value: real, nextPub: Tick)

  /** The temperature gate before its first publication (zero-initialised). */
  const InitialDeltaGate: DeltaGate := DeltaGate(0.0, 0)

  function PassDelta(g: DeltaGate, v: real, delta: real, interval: Tick, now: Tick): (r: Verdict<DeltaGate>)
    ensures r.open <==> (v - g.value >= delta || g.value - v >= delta || g.nextPub < now)
    ensures r.open ==> r.gate == DeltaGate(v, now + interval)
    ensures !r.open ==> r.gate == g
    ensures delta <= 0.0 ==> r.open
  {
    if Abs(v - g.value) >= delta || g.nextPub < now then Verdict(true, DeltaGate(v, now + interval))
    else Verdict(false, g)
  }

  /** Right after publishing `v`, the temperature gate stays closed for the
      same reading until the new deadline has passed, as long as the delta
      is positive. */
  lemma PassDeltaSettles(g: DeltaGate, v: real, delta: real, interval: Tick, now: Tick, later: Tick)
    requires delta > 0.0
    requires PassDelta(g, v, delta, interval, now).open
    requires later <= now + interval
    ensures !PassDelta(PassDelta(g, v, delta, interval, now).gate, v, delta, interval, later).open
  {
  }

  /** A reading offered to the temperature gate: its value and its tick. */
  datatype Reading = Reading(value: real, at: Tick)

  /** The readings the temperature gate lets through over a series of calls
      with one delta and one interval, and its state after them. */
  datatype Publications = Publications(gate: DeltaGate, published: seq<Reading>)

  function PassDeltas(g: DeltaGate, delta: real, interval: Tick, readings: seq<Reading>): Publications
    decreases |readings|
  {
    if readings == [] then Publications(g, [])
    else
      var x := readings[0];
      var v := PassDelta(g, x.value, delta, interval, x.at);
      var rest := PassDeltas(v.gate, delta, interval, readings[1..]);
      Publications(rest.gate, (if v.open then [x] else []) + rest.published)
  }

  /** One more reading after a series. */
  lemma {:induction false} PassDeltasSnoc(g: DeltaGate, delta: real, interval: Tick, readings: seq<Reading>, x: Reading)
    ensures var before := PassDeltas(g, delta, interval, readings);
      var v := PassDelta(before.gate, x.value, delta, interval, x.at);
      PassDeltas(g, delta, interval, readings + [x]) == Publications(v.gate, before.published + (if v.open then [x] else []))
    decreases |readings|
  {
    if readings == [] {
      assert readings + [x] == [x];
    } else {
      var x0 := readings[0];
      var v0 := PassDelta(g, x0.value, delta, interval, x0.at);
      PassDeltasSnoc(v0.gate, delta, interval, readings[1..], x);
      assert (readings + [x])[0] == x0;
      assert (readings + [x])[1..] == readings[1..] + [x];
    }
  }

  /** A reading may follow the gate state `g`: it differs by at least the
      delta from the last published value, or comes after the deadline. */
  predicate Follows(g: DeltaGate, x: Reading, delta: real)
  {
    Abs(x.value - g.value) >= delta || x.at > g.nextPub
  }

  /** Each publication differs by at least the delta from the one before it,
      or comes more than one interval after it. */
  predicate DeltaOrTime(ps: seq<Reading>, delta: real, interval: Tick)
  {
    forall k :: 0 <= k < |ps| - 1 ==> Follows(DeltaGate(ps[k].value, ps[k].at + interval), ps[k + 1], delta)
  }

  /** The first reading let through follows the initial gate state: readings
      the gate holds back do not move it. */
  lemma {:induction false} PassDeltasFirst(g: DeltaGate, delta: real, interval: Tick, readings: seq<Reading>)
    ensures var ps := PassDeltas(g, delta, interval, readings).published;
      ps != [] ==> Follows(g, ps[0], delta)
    decreases |readings|
  {
    if readings != [] {
      var x := readings[0];
      var v := PassDelta(g, x.value, delta, interval, x.at);
      if !v.open {
        PassDeltasFirst(g, delta, interval, readings[1..]);
      }
    }
  }

  /** Whatever the readings, two consecutive temperature publications are
      either at least the delta apart in value or more than the publish
      interval apart in time. */
  lemma {:induction false} PassDeltasSpacing(g: DeltaGate, delta: real, interval: Tick, readings: seq<Reading>)
    ensures DeltaOrTime(PassDeltas(g, delta, interval, readings).published, delta, interval)
    decreases |readings|
  {
    if readings != [] {
      var x := readings[0];
      var v := PassDelta(g, x.value, delta, interval, x.at);
      var later := PassDeltas(v.gate, delta, interval, readings[1..]).published;
      PassDeltasSpacing(v.gate, delta, interval, readings[1..]);
      var ps := (if v.open then [x] else []) + later;
      assert PassDeltas(g, delta, interval, readings).published == ps;
      if v.open {
        PassDeltasFirst(v.gate, delta, interval, readings[1..]);
      }
      assert DeltaOrTime(later, delta, interval);
      forall k | 0 <= k < |ps| - 1
        ensures Follows(DeltaGate(ps[k].value, ps[k].at + interval), ps[k + 1], delta)
      {
        if !v.open {
          assert ps[k] == later[k] && ps[k + 1] == later[k + 1];
        } else if k > 0 {
          assert ps[k] == later[k - 1] && ps[k + 1] == later[(k - 1) + 1];
        } else {
          assert ps[0] == x && ps[1] == later[0];
        }
      }
    }
  }
}

=== FILE: orientation.dfy ===
/** The orientation debouncer: the face label computed from each accelerometer
    sample is reported only when it differs from the face remembered from the
    previous sample, which starts out unknown. */
module Orientation {

  /** A face label of the external dice classifier. */
  datatype Face = Unknown | Side(n: nat)

  /** The remembered face after some samples, and the faces reported on the way. */
  datatype Debounced = Debounced(last: Face, emitted: seq<Face>)

  /** One sample. */
  function Sample(last: Face, face: Face): (r: Debounced)
    ensures r.last == face
    ensures r.emitted != [] <==> face != last
    ensures |r.emitted| <= 1 && forall e :: e in r.emitted ==> e == face
  {
    if last != face then Debounced(face, [face]) else Debounced(last, [])
  }

  /** A series of samples, starting from the remembered face `last`. */
  function Samples(last: Face, faces: seq<Face>): Debounced
    decreases |faces|
  {
    if faces == [] then Debounced(last, [])
    else
      var s := Sample(last, faces[0]);
      var rest := Samples(s.last, faces[1..]);
      Debounced(rest.last, s.emitted + rest.emitted)
  }

  /** One more sample after a series. */
  lemma {:induction false} SamplesSnoc(last: Face, faces: seq<Face>, face: Face)
    ensures var before := Samples(last, faces);
      var s := Sample(before.last, face);
      Samples(last, faces + [face]) == Debounced(s.last, before.emitted + s.emitted)
    decreases |faces|
  {
    if faces == [] {
      assert faces + [face] == [face];
    } else {
      var s0 := Sample(last, faces[0]);
      SamplesSnoc(s0.last, faces[1..], face);
      assert (faces + [face])[0] == faces[0];
      assert (faces + [face])[1..] == faces[1..] + [face];
    }
  }

  /** No two consecutive reports are equal. */
  predicate NoRepeats(s: seq<Face>)
  {
    forall i :: 0 < i < |s| ==> s[i - 1] != s[i]
  }

  /** After a series of samples the debouncer remembers the latest one. */
  lemma {:induction false} SamplesLast(last: Face, faces: seq<Face>)
    ensures Samples(last, faces).last == (if faces == [] then last else faces[|faces| - 1])
    decreases |faces|
  {
    if faces != [] {
      SamplesLast(Sample(last, faces[0]).last, faces[1..]);
      if faces[1..] != [] {
        assert faces[1..][|faces[1..]| - 1] == faces[|faces| - 1];
      }
    }
  }

  /** Reports are a sub-collection of the samples: never more of them, and
      only faces that were sampled. */
  lemma {:induction false} ReportsAreSamples(last: Face, faces: seq<Face>)
    ensures |Samples(last, faces).emitted| <= |faces|
    ensures forall e :: e in Samples(last, faces).emitted ==> e in faces
    decreases |faces|
  {
    if faces != [] {
      var s := Sample(last, faces[0]);
      var rest := Samples(s.last, faces[1..]);
      ReportsAreSamples(s.last, faces[1..]);
      assert Samples(last, faces).emitted == s.emitted + rest.emitted;
      forall e | e in rest.emitted
        ensures e in faces
      {
        assert e in faces[1..];
      }
    }
  }

  lemma ConsNoRepeats(x: Face, s: seq<Face>)
    requires NoRepeats(s)
    requires s != [] ==> s[0] != x
    ensures NoRepeats([x] + s)
  {
    var out := [x] + s;
    forall i | 0 < i < |out|
      ensures out[i - 1] != out[i]
    {
      if i == 1 {
        assert out[1] == s[0];
      } else {
        assert out[i - 1] == s[i - 2] && out[i] == s[i - 1];
      }
    }
  }

  /** The reports never repeat themselves, the first differs from the face
      remembered before, and the last is the face remembered after (which is
      the one remembered before when nothing was reported). */
  lemma {:induction false} ReportsAreEdges(last: Face, faces: seq<Face>)
    ensures NoRepeats(Samples(last, faces).emitted)
    ensures Samples(last, faces).emitted != [] ==> Samples(last, faces).emitted[0] != last
    ensures Samples(last, faces).emitted != [] ==>
              Samples(last, faces).last == Samples(last, faces).emitted[|Samples(last, faces).emitted| - 1]
    ensures Samples(last, faces).emitted == [] ==> Samples(last, faces).last == last
    decreases |faces|
  {
    if faces != [] {
      var s := Sample(last, faces[0]);
      var rest := Samples(s.last, faces[1..]);
      ReportsAreEdges(s.last, faces[1..]);
      var out := s.emitted + rest.emitted;
      assert Samples(last, faces) == Debounced(rest.last, out);
      if s.emitted == [] {
        assert out == rest.emitted;
      } else {
        assert out == [faces[0]] + rest.emitted;
        ConsNoRepeats(faces[0], rest.emitted);
        if rest.emitted != [] {
          assert out[|out| - 1] == rest.emitted[|rest.emitted| - 1];
        }
      }
    }
  }

  /** A series that already has no repeats and starts away from the
      remembered face is reported unchanged. */
  lemma {:induction false} ReportsPassUnchanged(last: Face, s: seq<Face>)
    requires NoRepeats(s)
    requires s != [] ==> s[0] != last
    ensures Samples(last, s).emitted == s
    decreases |s|
  {
    if s != [] {
      assert NoRepeats(s[1..]) by {
        forall i | 0 < i < |s[1..]|
          ensures s[1..][i - 1] != s[1..][i]
        {
          assert s[1..][i - 1] == s[i] && s[1..][i] == s[i + 1];
        }
      }
      if |s| > 1 {
        assert s[1..][0] == s[1];
      }
      ReportsPassUnchanged(s[0], s[1..]);
      assert [s[0]] + s[1..] == s;
    }
  }

  /** Debouncing is idempotent: feeding the reports to a debouncer that
      starts from the same face reports them again, unchanged. */
  lemma Idempotent(last: Face, faces: seq<Face>)
    ensures Samples(last, Samples(last, faces).emitted).emitted == Samples(last, faces).emitted
  {
    ReportsAreEdges(last, faces);
    ReportsPassUnchanged(last, Samples(last, faces).emitted);
  }

  /** The samples A A B B B A report A B A; a first sample that is itself
      unknown reports nothing. */
  lemma Examples(a: Face, b: Face)
    requires a != Unknown && b != Unknown && a != b
    ensures Samples(Unknown, [a, a, b, b, b, a]).emitted == [a, b, a]
    ensures Samples(Unknown, [Unknown]).emitted == []
  {
    assert [a, a, b, b, b, a][1..] == [a, b, b, b, a];
    assert [a, b, b, b, a][1..] == [b, b, b, a];
    assert [b, b, b, a][1..] == [b, b, a];
    assert [b, b, a][1..] == [b, a];
    assert [b, a][1..] == [a];
    assert Samples(b, [a]).emitted == [a];
    assert Samples(b, [b, a]).emitted == [a];
    assert Samples(b, [b, b, a]).emitted == [a];
    assert Samples(a, [b, b, b, a]).emitted == [b, a];
    assert Samples(a, [a, b, b, b, a]).emitted == [b, a];
  }
}

=== FILE: presence.dfy ===
/** The presence detector: motion pulses counted over a window, turned into a
    present/absent flag with two thresholds at the end of each window. */
module Presence {

  import opened Bounded

  /** The pulses counted in the current window and the flag carried between windows. */
  datatype Detector = Detector(count: nat, present: bool)

  const InitialDetector: Detector := Detector(0, false)

  /** The hysteresis rule as one formula. The leave test is applied to the flag
      the enter test may just have raised, so when the thresholds overlap the
      leave test decides. */
  predicate Hysteresis(present: bool, count: int, enter: int, leave: int)
  {
    (present || count >= enter) && !(count <= leave)
  }

  /** The two tests of the window task, in the order the firmware runs them. */
  function Evaluate(present: bool, count: nat, enter: uint8, leave: uint8): (r: bool)
    ensures r == Hysteresis(present, count, enter, leave)
    ensures !present ==> (r <==> count >= enter && count > leave)
    ensures present ==> (r <==> count > leave)
    ensures !present && count < enter ==> !r
    ensures present && count > leave ==> r
    ensures enter <= count <= leave ==> !r
  {
    var entered := if !present && count >= enter then true else present;
    if entered && count <= leave then false else entered
  }

  /** When the leave threshold is below the enter threshold, counts strictly
      between the two keep the flag as it was: the hysteresis band. */
  lemma HysteresisBand(present: bool, count: nat, enter: uint8, leave: uint8)
    requires leave < count < enter
    ensures Evaluate(present, count, enter, leave) == present
  {
  }
}

=== FILE: sensitivity.dfy ===
/** Cycling the PIR sensitivity with a long button press. The enumeration
    values of the driver's sensitivity levels are parameters here: only the
    lowest and the highest level matter. */
module Sensitivity {

  import opened Bounded

  /** The lowest and highest sensitivity level of the PIR driver. They are
      enumeration values, so the highest is well below the byte's maximum. */
  datatype Levels = Levels(low: uint8, veryHigh: uint8)
  {
    predicate Valid()
    {
      low < veryHigh < TWO_8 - 1
    }
  }

  /** One long press: the byte is incremented (wrapping at 256) and falls back
      to the lowest level when it passes the highest. */
  function Next(s: uint8, levels: Levels): (r: uint8)
    requires levels.Valid()
    ensures r <= levels.veryHigh
    ensures s < levels.veryHigh ==> r == s + 1
    ensures levels.veryHigh <= s < TWO_8 - 1 ==> r == levels.low
    ensures s == TWO_8 - 1 ==> r == 0
  {
    var bumped := ToUint8(s + 1);
    if bumped > levels.veryHigh then levels.low else bumped
  }

  /** `k` long presses. */
  function Presses(s: uint8, levels: Levels, k: nat): (r: uint8)
    requires levels.Valid()
    decreases k
  {
    if k == 0 then s else Presses(Next(s, levels), levels, k - 1)
  }

  /** From a level between the lowest and the highest, pressing once per level
      left above it and once more comes back to the lowest level. */
  lemma {:induction false} PressesToLow(s: uint8, levels: Levels)
    requires levels.Valid()
    requires levels.low <= s <= levels.veryHigh
    ensures Presses(s, levels, levels.veryHigh - s + 1) == levels.low
    decreases levels.veryHigh - s
  {
    if s == levels.veryHigh {
      assert Next(s, levels) == levels.low;
      assert Presses(s, levels, 1) == Presses(levels.low, levels, 0);
    } else {
      PressesToLow(s + 1, levels);
      assert Next(s, levels) == s + 1;
    }
  }

  /** Below the highest level, each press climbs one level. */
  lemma {:induction false} PressesUp(s: uint8, levels: Levels, k: nat)
    requires levels.Valid()
    requires s as int + k <= levels.veryHigh
    ensures Presses(s, levels, k) == s as int + k
    decreases k
  {
    if k > 0 {
      assert Next(s, levels) == s + 1;
      PressesUp(s + 1, levels, k - 1);
    }
  }

  /** The levels form a cycle of length `veryHigh - low + 1`: from the lowest
      level, the presses visit every level up to the highest in turn, and the
      next press returns to the lowest. */
  lemma PressesCycle(levels: Levels)
    requires levels.Valid()
    ensures forall k :: 0 <= k <= levels.veryHigh - levels.low ==> Presses(levels.low, levels, k) == levels.low + k
    ensures Presses(levels.low, levels, levels.veryHigh - levels.low + 1) == levels.low
  {
    forall k | 0 <= k <= levels.veryHigh - levels.low
      ensures Presses(levels.low, levels, k) == levels.low + k
    {
      PressesUp(levels.low, levels, k);
    }
    PressesToLow(levels.low, levels);
  }
}

=== FILE: traces.dfy ===
/** Properties of the application over series of inputs. */
module Traces {

  import opened Wrappers
  import opened Bounded
  import opened Configuration
  import opened Gates
  import opened Presence
  import opened Application
  import opened Orientation
  import Sensitivity

  // ---------------------------------------------------------------------------
  // A disabled presence window

  /** An input that sets the window interval to a non-zero value. */
  predicate Wakes(input: Input)
  {
    && input.ConfigSetInput?
    && input.command.Some?
    && Lookup(input.command.value.name) == Some(PresenceInterval)
    && ToUint32(input.command.value.value as int * 1000) != 0
  }

  predicate IsPresenceEvent(e: Event)
  {
    e.PresenceStatePublished? || e.PresenceEventsPublished?
  }

  /** One input while the window interval is zero. */
  lemma HandleWhileDisabled(n: Node, levels: Sensitivity.Levels, input: Input)
    requires levels.Valid()
    requires n.config.enterInterval == 0
    requires !Wakes(input)
    ensures Handle(n, levels, input).node.config.enterInterval == 0
    ensures Handle(n, levels, input).node.detector.present == n.detector.present
    ensures forall e :: e in Handle(n, levels, input).events ==> !IsPresenceEvent(e)
  {
  }

  /** While the window interval is zero and nothing sets it to a non-zero
      value, the presence flag never changes and nothing about presence is
      published, whatever else happens. */
  lemma {:induction false} DormantWhileDisabled(n: Node, levels: Sensitivity.Levels, inputs: seq<Input>)
    requires levels.Valid()
    requires n.config.enterInterval == 0
    requires forall i :: 0 <= i < |inputs| ==> !Wakes(inputs[i])
    ensures Run(n, levels, inputs).node.config.enterInterval == 0
    ensures Run(n, levels, inputs).node.detector.present == n.detector.present
    ensures forall e :: e in Run(n, levels, inputs).events ==> !IsPresenceEvent(e)
    decreases |inputs|
  {
    if inputs != [] {
      var before := Run(n, levels, inputs[..|inputs| - 1]);
      DormantWhileDisabled(n, levels, inputs[..|inputs| - 1]);
      HandleWhileDisabled(before.node, levels, inputs[|inputs| - 1]);
    }
  }

  /** Setting the window interval to 0 plans the task at once; that run
      returns without replanning, and from then on the detector is frozen
      until the interval is set to a non-zero value. */
  lemma SetIntervalZeroFreezes(n: Node, levels: Sensitivity.Levels, now: Tick, later: Tick, inputs: seq<Input>)
    requires levels.Valid()
    requires forall i :: 0 <= i < |inputs| ==> !Wakes(inputs[i])
    ensures var s := ConfigSet(n, now, Some(Command("Presence Interval", 0)));
      && s.ok
      && s.node.presenceDue == Some(now)
      && PresenceTask(s.node, later) == Step(s.node, [])
      && Run(s.node, levels, inputs).node.detector.present == n.detector.present
      && forall e :: e in Run(s.node, levels, inputs).events ==> !IsPresenceEvent(e)
  {
    var s := ConfigSet(n, now, Some(Command("Presence Interval", 0)));
    assert Lookup("Presence Interval") == Some(PresenceInterval);
    assert Field(s.node.config, PresenceInterval) == Whole(0);
    DormantWhileDisabled(s.node, levels, inputs);
  }

  // ---------------------------------------------------------------------------
  // Motion pulses

  predicate IsMotion(input: Input)
  {
    input.PirInput? && input.pirEvent == Motion
  }

  /** The ticks of a series of PIR inputs. */
  function Ticks(inputs: seq<Input>): (r: seq<Tick>)
    requires forall i :: 0 <= i < |inputs| ==> IsMotion(inputs[i])
    ensures |r| == |inputs|
    decreases |inputs|
  {
    if inputs == [] then []
    else assert IsMotion(inputs[|inputs| - 1]); Ticks(inputs[..|inputs| - 1]) + [inputs[|inputs| - 1].now]
  }

  /** A series of motion pulses adds its length to the window count and,
      modulo 2^16, to the cumulative count; it changes neither the flag nor
      the configuration, and there are as many publications as openings of
      the time-only gate over the pulses' ticks (which pulses they are is
      `PubTicksAreOpenings`). */
  lemma {:induction false} MotionTrace(n: Node, levels: Sensitivity.Levels, inputs: seq<Input>)
    requires levels.Valid()
    requires forall i :: 0 <= i < |inputs| ==> IsMotion(inputs[i])
    ensures var r := Run(n, levels, inputs);
      var g := PassTimes(n.pirGate, n.config.pirPubMinInterval, Ticks(inputs));
      && r.node.detector == n.detector.(count := n.detector.count + |inputs|)
      && r.node.pirEventCount == (n.pirEventCount + |inputs|) % TWO_16
      && r.node.config == n.config
      && r.node.pirGate == g.gate
      && |r.events| == |g.openedAt|
      && forall e :: e in r.events ==> e.PirMotionCountPublished?
    decreases |inputs|
  {
    if inputs != [] {
      var prefix := inputs[..|inputs| - 1];
      var x := inputs[|inputs| - 1];
      assert IsMotion(x);
      var before := Run(n, levels, prefix);
      MotionTrace(n, levels, prefix);
      var last := Handle(before.node, levels, x);
      assert last == PirHandler(before.node, x.now, Motion);
      var g := PassTimes(n.pirGate, n.config.pirPubMinInterval, Ticks(prefix));
      PassTimesSnoc(n.pirGate, n.config.pirPubMinInterval, Ticks(prefix), x.now);
      assert Ticks(inputs) == Ticks(prefix) + [x.now];
      assert (before.node.pirEventCount + 1) % TWO_16 == (n.pirEventCount + |inputs|) % TWO_16;
      forall e | e in Run(n, levels, inputs).events
        ensures e.PirMotionCountPublished?
      {
        assert e in before.events || e in last.events;
      }
    }
  }

  /** The ticks of the pulses whose handling published the motion count. */
  function PubTicks(n: Node, levels: Sensitivity.Levels, inputs: seq<Input>): (r: seq<Tick>)
    requires levels.Valid()
    requires forall i :: 0 <= i < |inputs| ==> IsMotion(inputs[i])
    ensures |r| <= |inputs|
    decreases |inputs|
  {
    if inputs == [] then []
    else
      var x := inputs[|inputs| - 1];
      assert IsMotion(x);
      var before := Run(n, levels, inputs[..|inputs| - 1]);
      PubTicks(n, levels, inputs[..|inputs| - 1])
        + (if Handle(before.node, levels, x).events != [] then [x.now] else [])
  }

  /** The pulses that published are exactly those at which the time-only
      gate opens over the pulses' ticks. */
  lemma {:induction false} PubTicksAreOpenings(n: Node, levels: Sensitivity.Levels, inputs: seq<Input>)
    requires levels.Valid()
    requires forall i :: 0 <= i < |inputs| ==> IsMotion(inputs[i])
    ensures PubTicks(n, levels, inputs) == PassTimes(n.pirGate, n.config.pirPubMinInterval, Ticks(inputs)).openedAt
    decreases |inputs|
  {
    if inputs != [] {
      var prefix := inputs[..|inputs| - 1];
      var x := inputs[|inputs| - 1];
      assert IsMotion(x);
      PubTicksAreOpenings(n, levels, prefix);
      MotionTrace(n, levels, prefix);
      PassTimesSnoc(n.pirGate, n.config.pirPubMinInterval, Ticks(prefix), x.now);
      assert Ticks(inputs) == Ticks(prefix) + [x.now];
    }
  }

  /** Between two publications of the motion count there are always more
      than the configured interval, however often the PIR fires: the ticks of
      the publishing pulses are spaced, and there is one publication per
      such pulse. */
  lemma MotionPublicationsSpaced(n: Node, levels: Sensitivity.Levels, inputs: seq<Input>)
    requires levels.Valid()
    requires forall i :: 0 <= i < |inputs| ==> IsMotion(inputs[i])
    ensures |Run(n, levels, inputs).events| == |PubTicks(n, levels, inputs)|
    ensures Spaced(PubTicks(n, levels, inputs), n.config.pirPubMinInterval)
  {
    MotionTrace(n, levels, inputs);
    PubTicksAreOpenings(n, levels, inputs);
    PassTimesSpacing(n.pirGate, n.config.pirPubMinInterval, Ticks(inputs));
  }

  // ---------------------------------------------------------------------------
  // Temperature

  /** A thermometer update that delivered a reading. */
  predicate IsReading(input: Input)
  {
    input.TemperatureInput? && input.temperatureEvent.Update? && input.temperatureEvent.reading.Some?
  }

  /** The readings of a series of successful thermometer updates. */
  function Readings(inputs: seq<Input>): (r: seq<Reading>)
    requires forall i :: 0 <= i < |inputs| ==> IsReading(inputs[i])
    ensures |r| == |inputs|
    decreases |inputs|
  {
    if inputs == [] then []
    else
      var x := inputs[|inputs| - 1];
      assert IsReading(x);
      Readings(inputs[..|inputs| - 1]) + [Reading(x.temperatureEvent.reading.value, x.now)]
  }

  /** The publications of a series of readings. */
  function TemperatureEvents(ps: seq<Reading>): (r: seq<Event>)
    ensures |r| == |ps|
    ensures forall i :: 0 <= i < |r| ==> r[i] == TemperaturePublished(ps[i].value)
  {
    seq(|ps|, i requires 0 <= i < |ps| => TemperaturePublished(ps[i].value))
  }

  /** Over a series of successful readings, the node publishes exactly the
      readings the temperature gate lets through, in order, and changes
      nothing but the gate; so two consecutive publications are at least the
      delta apart in value or more than the interval apart in time. */
  lemma {:induction false} TemperatureTrace(n: Node, levels: Sensitivity.Levels, inputs: seq<Input>)
    requires levels.Valid()
    requires forall i :: 0 <= i < |inputs| ==> IsReading(inputs[i])
    ensures var p := PassDeltas(n.temperatureGate, n.config.temperaturePublishValueChange,
                                n.config.temperaturePublishInterval, Readings(inputs));
      && Run(n, levels, inputs).events == TemperatureEvents(p.published)
      && Run(n, levels, inputs).node == n.(temperatureGate := p.gate)
    decreases |inputs|
  {
    if inputs != [] {
      var prefix := inputs[..|inputs| - 1];
      var x := inputs[|inputs| - 1];
      assert IsReading(x);
      var r := Reading(x.temperatureEvent.reading.value, x.now);
      var delta := n.config.temperaturePublishValueChange;
      var interval := n.config.temperaturePublishInterval;
      TemperatureTrace(n, levels, prefix);
      PassDeltasSnoc(n.temperatureGate, delta, interval, Readings(prefix), r);
      assert Readings(inputs) == Readings(prefix) + [r];
      var before := PassDeltas(n.temperatureGate, delta, interval, Readings(prefix));
      var v := PassDelta(before.gate, r.value, delta, interval, r.at);
      assert TemperatureEvents(before.published + (if v.open then [r] else []))
          == TemperatureEvents(before.published) + TemperatureEvents(if v.open then [r] else []);
    }
  }

  // ---------------------------------------------------------------------------
  // Orientation

  /** An accelerometer update that the classifier turned into a face. */
  predicate IsFace(input: Input)
  {
    input.AccelerometerInput? && input.accelerometerEvent.Update? && input.accelerometerEvent.reading.Some?
  }

  /** The faces of a series of classified accelerometer updates. */
  function Faces(inputs: seq<Input>): (r: seq<Face>)
    requires forall i :: 0 <= i < |inputs| ==> IsFace(inputs[i])
    ensures |r| == |inputs|
    decreases |inputs|
  {
    if inputs == [] then []
    else
      assert IsFace(inputs[|inputs| - 1]);
      Faces(inputs[..|inputs| - 1]) + [inputs[|inputs| - 1].accelerometerEvent.reading.value]
  }

  /** Over a series of classified updates, the node publishes exactly the
      debouncer's reports, in order, and ends remembering the debouncer's
      face; nothing else in the node changes. */
  lemma {:induction false} OrientationTrace(n: Node, levels: Sensitivity.Levels, inputs: seq<Input>)
    requires levels.Valid()
    requires forall i :: 0 <= i < |inputs| ==> IsFace(inputs[i])
    ensures var d := Samples(n.lastFace, Faces(inputs));
      && Run(n, levels, inputs).events == OrientationEvents(d.emitted)
      && Run(n, levels, inputs).node == n.(lastFace := d.last)
    decreases |inputs|
  {
    if inputs != [] {
      var prefix := inputs[..|inputs| - 1];
      var x := inputs[|inputs| - 1];
      assert IsFace(x);
      var f := x.accelerometerEvent.reading.value;
      OrientationTrace(n, levels, prefix);
      SamplesSnoc(n.lastFace, Faces(prefix), f);
      assert Faces(inputs) == Faces(prefix) + [f];
      var before := Samples(n.lastFace, Faces(prefix));
      var s := Sample(before.last, f);
      assert OrientationEvents(before.emitted + s.emitted)
          == OrientationEvents(before.emitted) + OrientationEvents(s.emitted);
    }
  }

  // ---------------------------------------------------------------------------
  // Presence windows

  /** The window behaviour of the default thresholds (enter at 4 pulses,
      leave at 2): a window of 4 or more pulses makes an absent node present,
      a window of at most 2 makes it absent, a window of 3 keeps the flag; the
      count is cleared and published either way. */
  lemma PresenceWindows(n: Node, levels: Sensitivity.Levels, pulses: seq<Input>, now: Tick)
    requires levels.Valid()
    requires n.config.enterThreshold == 4 && n.config.leaveThreshold == 2 && n.config.enterInterval != 0
    requires n.detector.count == 0
    requires forall i :: 0 <= i < |pulses| ==> IsMotion(pulses[i])
    ensures var r := Run(n, levels, pulses + [PresenceTaskInput(now)]);
      && (|pulses| >= 4 ==> r.node.detector.present)
      && (|pulses| <= 2 ==> !r.node.detector.present)
      && (|pulses| == 3 ==> r.node.detector.present == n.detector.present)
      && r.node.detector.count == 0
      && PresenceEventsPublished(|pulses|) in r.events
  {
    var inputs := pulses + [PresenceTaskInput(now)];
    assert inputs[..|inputs| - 1] == pulses;
    MotionTrace(n, levels, pulses);
    var a := Run(n, levels, pulses);
    var t := PresenceTask(a.node, now);
    assert Run(n, levels, inputs).events == a.events + t.events;
    assert t.events[1] in a.events + t.events;
  }

  /** With overlapping thresholds (enter at or below leave), a window whose
      count lies between them leaves an absent node absent: the leave test
      sees the flag the enter test has just raised. */
  lemma OverlapLeaveWins(n: Node, now: Tick)
    requires n.config.enterInterval != 0
    requires !n.detector.present
    requires n.config.enterThreshold <= n.detector.count <= n.config.leaveThreshold
    ensures !PresenceTask(n, now).node.detector.present
    ensures PresenceTask(n, now).events[0] == PresenceStatePublished(0)
  {
  }
}

=== FILE: wrappers.dfy ===
/** Optional values: a console command that did not parse, a sensor read that failed. */
module Wrappers {

  datatype Option<+T> = None | Some(value: T)
}
